=== FILE: README.md ===
# Menstrual cycle visualizer: the phase classifier

A Dafny model of the logic of the browser extension's content script
(`content.js`). The extension colours the days of a calendar page by cycle
phase. The model covers:

- **Date utilities.** `formatDate` writes a date as `YYYY-MM-DD`.
  `dayDifference` counts the whole days between two dates. It works through
  `Date.UTC` values of their year, month and day.
- **Cycle calculation.** `getCyclePhase` classifies a day as `'period'`,
  `'fertile'` or `'regular'`. The inputs are a cycle start date, a cycle length
  and a period length.
- **Phase to colour.** The `switch` in `updateCalendarStyles` maps a phase to a
  CSS colour. The `if (color)` test after it decides whether the day gets a
  style rule.

A date is modelled as the three values a JavaScript `Date` exposes:
`getFullYear()`, the 0-based `getMonth()` and `getDate()`
(`Calendar.CalendarDate`). The subset type `Calendar.Date` holds only days
that exist. `Calendar.DayNumber` counts days from 1970-01-01 in the proleptic
Gregorian calendar, the calendar `Date.UTC` uses. Milliseconds are that count
times 86 400 000, so `Math.floor` of a difference divided by `msPerDay` is
exact.

Modules:

- `Calendar` (`calendar.dfy`): day numbers, calendar order, `NextDay`/`AddDays`,
  and `dayDifference`.
- `DateFormat` (`date_format.dfy`): `formatDate` built from `String(n)` and
  `padStart(2, '0')`. It also has `ParseDate`, a reader for the `YYYY-MM-DD`
  form. `ParseDate` is not part of the program; it is the inverse used to state
  both round trips.
- `CyclePhase` (`cycle_phase.dfy`): `ClassifyDay`, the arithmetic of
  `getCyclePhase` on a day count, and `GetCyclePhase` on dates. It also has a
  reference description ("day `o` of cycle number `c`") and the periodicity
  lemmas.
- `PhaseColor` (`phase_color.dfy`): the phase-to-colour `switch` and whether a
  rule is written.
- `Arith` (`arith.dfy`) and `Wrappers` (`wrappers.dfy`): Euclidean division
  facts and `Option`.

Behaviour of the code that the model keeps:

- The third phase is `'regular'` (`Phase.Regular`).
- The lengths are integers that the code never checks, so the model puts no
  condition on them. With a cycle length of 0, JavaScript's `n % 0` is NaN.
  Every comparison with NaN is false, so the day is `'regular'`. A negative
  cycle length goes through `%`'s truncating remainder
  (`CyclePhase.JsRemainder`).
- Only two fixed colours exist: light pink for period days and light blue for
  fertile days.

## Model

| member | source | states |
|---|---|---|
| Calendar.DayNumber | content.js:34-35 | The day count behind `Date.UTC(year, month, day)` for a year outside 0–99 (the corrected `Date.UTC`), in days from 1970-01-01. It has no contract of its own; `Calendar.DayNumberOrder`, `Calendar.DayNumberInjective`, `Calendar.NextDay` and `Calendar.UtcMs` state its properties; `Calendar.UtcMs` pins 1970-01-01 to 0. |
| Calendar.UtcMs | content.js:34-35 | `Date.UTC` of a date's fields, for a year outside 0–99 (the corrected `Date.UTC`), counts milliseconds from 1970-01-01: that date gives 0. The value is a whole number of days, and that number of days is the date's day count. |
| Calendar.UtcMsNextDay | content.js:34-35 | The next calendar day's `Date.UTC` value is exactly 86 400 000 ms later, across month ends, year ends and 29 February. |
| Calendar.UtcYear | content.js:34-35 | The year `Date.UTC` uses is either the given year or that year plus 1900. It differs from the given year exactly for years 0 to 99, and it is never itself a year from 0 to 99. |
| Calendar.FloorDays | content.js:36 | `Math.floor(ms / msPerDay)`: the result is the whole number of days `r` with `r` days ≤ `ms` < `r + 1` days, also for negative `ms`. |
| Calendar.DayDifference | content.js:32-37 | With the corrected `Date.UTC` (years 0–99 are not moved to 1900–1999), the floor of the difference of the two `Date.UTC` millisecond values, divided by the milliseconds in a day, is exactly the difference of the two calendar day numbers. No rounding happens. |
| Calendar.DayDifferenceLaws | content.js:32-37 | `dayDifference(a, a) = 0`. `dayDifference(a, b) = -dayDifference(b, a)`. `dayDifference(a, b) + dayDifference(b, c) = dayDifference(a, c)`. The result is positive exactly when `a` comes before `b` in the calendar, and zero exactly when the two dates are the same day. |
| Calendar.DayDifferenceAddDays | content.js:32-37 | From a date to the date `n` calendar days later, `dayDifference` is `n`. |
| Calendar.DayNumberOrder | content.js:34-35 | The day count behind `Date.UTC(year, month, day)` orders real dates exactly as the calendar does: year first, then month, then day. |
| Calendar.DayNumberInjective | content.js:34-35 | Two real dates get the same `Date.UTC` day exactly when they are the same date. |
| Calendar.NextDay | content.js:34-35 | The next calendar day, which rolls over month and year ends and includes 29 February in leap years, is one day later in `Date.UTC`'s count and later in calendar order. |
| Calendar.AddDays | content.js:34-35 | The date `n` calendar days later is exactly `n` days later in `Date.UTC`'s count. |
| Calendar.DayDifferenceAsWritten | content.js:32-37 | The code as written: `Date.UTC` treats a year from 0 to 99 as 1900 to 1999. Outside those years the result is the true day difference. |
| Calendar.UtcMsAsWritten | content.js:34-35 | `Date.UTC(d.getFullYear(), d.getMonth(), d.getDate())` as the engine evaluates it: for a year outside 0–99 it is `Calendar.UtcMs` of the date; a year from 0 to 99 is read as that year plus 1900. |
| Calendar.TwoDigitYearCollision | content.js:34-36 | 0050-01-01 and 1950-01-01 are different dates and are 693 960 days apart. The code as written reports 0 days between them. |
| DateFormat.FormatDate | content.js:19-24 | `formatDate` itself. It has no contract of its own; `DateFormat.FormatDateShape` and the two round-trip lemmas state its properties. |
| DateFormat.IntToString | content.js:20-23 | `String(n)` for any integer: a non-negative number is its decimal digits, with no leading zero unless the number is 0, and they read back as `n`; a negative number is `-` followed by the digits of its magnitude, with no leading zero. |
| DateFormat.NatToString | content.js:21-23 | `String(n)` for a count is all digits. It has 1, 2, 3 or 4 characters for 1-, 2-, 3- or 4-digit numbers, and no leading zero. |
| DateFormat.NatToStringValue | content.js:21-23 | Reading the digits of `String(n)` gives back `n`. |
| DateFormat.PadStart | content.js:21-22 | `padStart(width, fill)` returns at least `width` characters. The original string is a suffix, and only fill characters come before it. |
| DateFormat.FormatDateShape | content.js:19-24 | For years 1000 to 9999 the output is ten characters. It has dashes at positions 4 and 7, the year's four digits, the month index plus one as two digits, and the day as two digits. |
| DateFormat.ParseFormatRoundTrip | content.js:19-24 | Reading a formatted date back gives the same date, for years 1000 to 9999. |
| DateFormat.FormatParseRoundTrip | content.js:19-24 | Every well-formed `YYYY-MM-DD` string of a real date in years 1000 to 9999 is exactly what `formatDate` writes for that date. |
| CyclePhase.JsRemainder | content.js:62 | JavaScript's `%` has a magnitude below the divisor's and takes the dividend's sign. Dividend minus remainder is a multiple of the divisor. |
| CyclePhase.ClassifyDay | content.js:56-79 | A day before the start (negative count) is regular, whatever the lengths. With a cycle length of 0 the day is regular. Otherwise, let `k` be the count modulo the cycle length. The day is period exactly when `k` is below the period length; this test comes first. It is fertile exactly when `k` is not below the period length and lies in `[cycleLength-18, cycleLength-13]`, both ends included. In every other case it is regular. |
| CyclePhase.GetCyclePhase | content.js:50-80 | A date before the start date is regular. With a cycle length of 0 every date is regular. The start date itself is a period day exactly when the cycle length is non-zero and the period length is positive. |
| CyclePhase.GetCyclePhaseAsWritten | content.js:50-80 | `getCyclePhase` on the day count of `dayDifference` as written. When neither date has a year from 0 to 99, it equals `GetCyclePhase`. |
| CyclePhase.TwoDigitYearPhase | content.js:56-67 | As written, 0050-01-01 with a start date of 1950-01-01 (28-day cycle, 5 period days) is a period day, although it comes before the start date. `GetCyclePhase` gives `'regular'` for it. |
| CyclePhase.PositionInCycle | content.js:62 | For a positive cycle length, a day on or after the start is day `o` of some cycle exactly when `o` is `daysSinceStart % cycleLength`. So `dayInCycle` lies in `[0, cycleLength)`. |
| CyclePhase.ClassifyDayMatchesCycles | content.js:62-79 | For a positive cycle length the classifier agrees with the cycle description. Period means one of the first `periodLength` days of its cycle. Fertile means a post-period day whose next cycle starts 13 to 18 days later. Regular means neither. |
| CyclePhase.ClassifyDayPeriodic | content.js:62 | Moving a day on or after the start forward by any whole number of cycles keeps its phase. |
| CyclePhase.GetCyclePhasePeriodic | content.js:56-62 | A date on or after the start date has the same phase as the date `k` whole cycles later, for any `k`. |
| CyclePhase.Example2024 | content.js:50-80 | Start 2024-01-01, 28-day cycle, 5 period days: 2023-12-31, the day before the start, is regular. |
| CyclePhase.ExampleJanuary | content.js:50-80 | Same cycle, every day of January 2024: the 1st–5th are period days, the 6th–10th regular, the 11th–16th fertile (days 10–15 counting from 0), the 17th–28th regular and the 29th–31st period days again. |
| PhaseColor.ColorOf | content.js:122-132 | Period gets the light pink fill and fertile the light blue fill. Regular gets the empty string, meaning no colour. No other phase gets those values. |
| PhaseColor.EmitsRule | content.js:134 | The `if (color)` test passes exactly when the day's phase is not regular. |
| PhaseColor.EmitsRuleExactly | content.js:119-134 | A corollary of `PhaseColor.EmitsRule`, with the corrected day count: a style rule is written for a day exactly when it is a period or fertile day. No rule is written before the start date or when the cycle length is 0. |

## Findings

| source | as written | input that shows it | evidently intended | confidence | as-written member | corrected member |
|---|---|---|---|---|---|---|
| content.js:34-35 | `Date.UTC(date.getFullYear(), ...)` takes a year from 0 to 99 to mean 1900 to 1999. Two dates 1900 years apart then get the same day count. | `dayDifference` of 0050-01-01 and 1950-01-01 is 0. | The number of whole days between the two calendar dates: 693 960. | not executed; high that `Date.UTC` reads years 0–99 as 1900–1999 (ECMAScript's `Date.UTC` does this); practical impact negligible | Calendar.DayDifferenceAsWritten | Calendar.FloorDays | content.js:36 | `Math.floor(ms / msPerDay)`: the result is the whole number of days `r` with `r` days ≤ `ms` < `r + 1` days, also for negative `ms`. |
| Calendar.DayDifference |

Apart from the as-written members (`Calendar.DayDifferenceAsWritten`,
`Calendar.TwoDigitYearCollision`, `CyclePhase.GetCyclePhaseAsWritten` and
`CyclePhase.TwoDigitYearPhase`), the model uses the corrected
`Calendar.DayDifference`. `Calendar.DayDifferenceLaws` proves the intended
property for it: zero exactly on equal dates, and positive exactly when the
first date comes first.

## Left out

- The DOM work in `updateCalendarStyles` (content.js:89-155) is not modelled: removing and injecting the `<style>` element, the `querySelectorAll` scan of day cells, and the CSS selector and rule text. Only the phase-to-colour switch and the `if (color)` test are modelled. These are side effects on a host page.
- The start-up and event code (content.js:162-212) is not modelled: `chrome.storage` loading, the `MutationObserver` debounce, the `onMessage` listener and the `load`/`setTimeout` start. These are timers and browser APIs.
- Date parsing and the timezone correction are not modelled: `new Date(string)` plus `setMinutes(... getTimezoneOffset())` (content.js:51-53, 114-116). The inputs are taken to be calendar triples already.
- Settings coercion and defaults (content.js:6-10, 164-169) are not modelled. The lengths are integers, so a NaN from `parseInt` is not modelled.
- Integers are unbounded. JavaScript's limit on `Date` values (±8.64·10¹⁵ ms) and the 2⁵³ precision of its numbers are not modelled. Real dates stay well inside both.
- `DateFormat.FormatDateShape`: stated for years 1000 to 9999 only. `String(year)` does not pad the year, so other years give other lengths. `FormatDate` itself is modelled for every year.
- popup.js, verifier.py and tests/test.spec.js are not modelled. They are form, storage and page-download glue, and they contain no logic of the classifier.
- Calendar.UtcMs: models `Date.UTC` for years outside 0–99 only. The engine moves years 0–99 to 1900–1999, which `Calendar.UtcMsAsWritten` models; `Calendar.DayNumber` and `Calendar.DayDifference` likewise count the true calendar day.
- CyclePhase.GetCyclePhase: uses the corrected day count (`Calendar.DayDifference`). For dates with a year from 0 to 99 it therefore differs from the code as written, which `CyclePhase.GetCyclePhaseAsWritten` models. `CyclePhase.TwoDigitYearPhase` shows one such date: the code calls it a period day, although it comes before the start date.

=== FILE: arith.dfy ===
/** Facts about integer multiplication and Euclidean division by a positive divisor. */
module Arith {

  function Abs(x: int): nat {
    if x < 0 then -x else x
  }

  lemma {:induction false} MulAtLeast(a: int, m: int)
    requires a >= 1 && m > 0
    ensures a * m >= m
    decreases a
  {
    if a > 1 {
      MulAtLeast(a - 1, m);
      assert a * m == (a - 1) * m + m;
    }
  }

  lemma Distrib(a: int, b: int, m: int)
    ensures a * m - b * m == (a - b) * m
  {
  }

  /** Quotient and remainder are the only pair with `x == q * m + r` and `0 <= r < m`. */
  lemma DivModUnique(x: int, m: int, q: int, r: int)
    requires m > 0 && 0 <= r < m && x == q * m + r
    ensures x / m == q && x % m == r
  {
    var q0, r0 := x / m, x % m;
    assert x == q0 * m + r0;
    Distrib(q, q0, m);
    if q > q0 {
      MulAtLeast(q - q0, m);
    } else if q < q0 {
      Distrib(q0, q, m);
      MulAtLeast(q0 - q, m);
    }
  }
}

=== FILE: calendar.dfy ===
/**
 * Calendar arithmetic behind `dayDifference` in content.js.
 *
 * A JavaScript Date is seen only through getFullYear, getMonth (0-based) and
 * getDate, so a date is the triple of those three values. `Date.UTC` counts
 * days in the proleptic Gregorian calendar from 1970-01-01; `DayNumber` is that
 * count, and milliseconds are that count times `MsPerDay`.
 */
module Calendar {
  import opened Arith

  /** Milliseconds in one day: 1000 * 60 * 60 * 24. */
  const MsPerDay: int := 86_400_000

  /** The calendar fields of a date: full year, month index 0..11, day of month. */
  datatype CalendarDate = CalendarDate(year: int, monthIndex: int, day: int) {

    /** True when the fields name a day that exists in the proleptic Gregorian calendar. */
    predicate Valid() {
      0 <= monthIndex < 12 && 1 <= day <= DaysInMonth(year, monthIndex)
    }
  }

  /** The fields of a JavaScript Date object are always normalised. */
  type Date = d: CalendarDate | d.Valid() witness CalendarDate(1970, 0, 1)

  predicate IsLeapYear(y: int) {
    y % 4 == 0 && (y % 100 != 0 || y % 400 == 0)
  }

  function DaysInYear(y: int): int {
    if IsLeapYear(y) then 366 else 365
  }

  function DaysInMonth(y: int, m: int): (n: int)
    requires 0 <= m < 12
    ensures 28 <= n <= 31
    ensures n == 29 <==> m == 1 && IsLeapYear(y)
  {
    if m == 1 then (if IsLeapYear(y) then 29 else 28)
    else if m == 3 || m == 5 || m == 8 || m == 10 then 30
    else 31
  }

  /** Days of year `y` that come before month index `m` (a cumulative table). */
  function DaysBeforeMonth(y: int, m: int): int
    requires 0 <= m <= 12
  {
    var table := [0, 31, 59, 90, 120, 151, 181, 212, 243, 273, 304, 334, 365];
    table[m] + (if m >= 2 && IsLeapYear(y) then 1 else 0)
  }

  /** A count of leap years before `y`, offset by a constant. */
  function LeapYearsBefore(y: int): int {
    (y - 1) / 4 - (y - 1) / 100 + (y - 1) / 400
  }

  /** Days from 1970-01-01 to the first of January of year `y`. */
  function DaysBeforeYear(y: int): int {
    365 * (y - 1970) + LeapYearsBefore(y) - LeapYearsBefore(1970)
  }

  /**
   * Days from 1970-01-01 to the given fields, the day count of `Date.UTC`.
   * Like `Date.UTC` it accepts a day past the end of the month and runs on
   * into the next one.
   */
  function DayNumber(d: CalendarDate): int
    requires 0 <= d.monthIndex < 12
  {
    DaysBeforeYear(d.year) + DaysBeforeMonth(d.year, d.monthIndex) + d.day - 1
  }


  /** Calendar order: earlier year, then earlier month, then earlier day. */
  predicate DateBefore(a: CalendarDate, b: CalendarDate) {
    a.year < b.year
    || (a.year == b.year && a.monthIndex < b.monthIndex)
    || (a.year == b.year && a.monthIndex == b.monthIndex && a.day < b.day)
  }

  // ---------------------------------------------------------------------------
  // Lengths of years and months
  // ---------------------------------------------------------------------------

  /** Moving from y - 1 to y raises floor(y / 4), floor(y / 100) and floor(y / 400) exactly at multiples. */
  lemma FloorQuotientSteps(y: int)
    ensures y / 4 - (y - 1) / 4 == (if y % 4 == 0 then 1 else 0)
    ensures y / 100 - (y - 1) / 100 == (if y % 100 == 0 then 1 else 0)
    ensures y / 400 - (y - 1) / 400 == (if y % 400 == 0 then 1 else 0)
  {
  }

  /** The closed-form leap count grows by one exactly across a leap year. */
  lemma LeapYearsBeforeStep(y: int)
    ensures LeapYearsBefore(y + 1) == LeapYearsBefore(y) + (if IsLeapYear(y) then 1 else 0)
  {
    FloorQuotientSteps(y);
    if y % 400 == 0 {
      assert y % 100 == 0 && y % 4 == 0 && IsLeapYear(y);
    } else if y % 100 == 0 {
      assert y % 4 == 0 && !IsLeapYear(y);
    } else if y % 4 == 0 {
      assert IsLeapYear(y);
    } else {
      assert !IsLeapYear(y);
    }
  }

  /** Consecutive Januaries are one year length apart. */
  lemma DaysBeforeYearStep(y: int)
    ensures DaysBeforeYear(y + 1) == DaysBeforeYear(y) + DaysInYear(y)
  {
    LeapYearsBeforeStep(y);
  }

  /** The cumulative table agrees with the month lengths, and the whole year adds up. */
  lemma DaysBeforeMonthStep(y: int, m: int)
    requires 0 <= m < 12
    ensures DaysBeforeMonth(y, m + 1) == DaysBeforeMonth(y, m) + DaysInMonth(y, m)
    ensures DaysBeforeMonth(y, 12) == DaysInYear(y)
  {
  }

  lemma {:induction false} DaysBeforeMonthMonotone(y: int, m1: int, m2: int)
    requires 0 <= m1 < m2 <= 12
    ensures DaysBeforeMonth(y, m1) + DaysInMonth(y, m1) <= DaysBeforeMonth(y, m2)
    decreases m2 - m1
  {
    DaysBeforeMonthStep(y, m1);
    if m1 + 1 < m2 {
      DaysBeforeMonthMonotone(y, m1 + 1, m2);
    }
  }

  lemma {:induction false} DaysBeforeYearMonotone(y1: int, y2: int)
    requires y1 < y2
    ensures DaysBeforeYear(y1) + DaysInYear(y1) <= DaysBeforeYear(y2)
    decreases y2 - y1
  {
    DaysBeforeYearStep(y1);
    if y1 + 1 < y2 {
      DaysBeforeYearMonotone(y1 + 1, y2);
    }
  }

  /** A valid date's day number lies inside its own year. */
  lemma DayNumberWithinYear(d: Date)
    ensures DaysBeforeYear(d.year) <= DayNumber(d) < DaysBeforeYear(d.year + 1)
  {
    DaysBeforeYearStep(d.year);
    DaysBeforeMonthStep(d.year, d.monthIndex);
    if d.monthIndex + 1 < 12 {
      DaysBeforeMonthMonotone(d.year, d.monthIndex + 1, 12);
    }
  }

  // ---------------------------------------------------------------------------
  // Order and identity of day numbers
  // ---------------------------------------------------------------------------

  /** Day numbers order valid dates exactly as the calendar does. */
  lemma DayNumberOrder(a: Date, b: Date)
    ensures DateBefore(a, b) <==> DayNumber(a) < DayNumber(b)
  {
    if a.year != b.year {
      DayNumberWithinYear(a);
      DayNumberWithinYear(b);
      DaysBeforeYearStep(a.year);
      DaysBeforeYearStep(b.year);
      if a.year < b.year {
        DaysBeforeYearMonotone(a.year, b.year);
      } else {
        DaysBeforeYearMonotone(b.year, a.year);
      }
    } else if a.monthIndex < b.monthIndex {
      DaysBeforeMonthMonotone(a.year, a.monthIndex, b.monthIndex);
    } else if b.monthIndex < a.monthIndex {
      DaysBeforeMonthMonotone(b.year, b.monthIndex, a.monthIndex);
    }
  }

  /** Distinct valid dates have distinct day numbers. */
  lemma DayNumberInjective(a: Date, b: Date)
    ensures DayNumber(a) == DayNumber(b) <==> a == b
  {
    DayNumberOrder(a, b);
    DayNumberOrder(b, a);
  }

  // ---------------------------------------------------------------------------
  // Walking through the calendar
  // ---------------------------------------------------------------------------

  /** The calendar day after `d`: it is always exactly one day number later. */
  function NextDay(d: Date): (r: Date)
    ensures DayNumber(r) == DayNumber(d) + 1
    ensures DateBefore(d, r)
  {
    DaysBeforeMonthStep(d.year, d.monthIndex);
    DaysBeforeYearStep(d.year);
    if d.day < DaysInMonth(d.year, d.monthIndex) then
      CalendarDate(d.year, d.monthIndex, d.day + 1)
    else if d.monthIndex < 11 then
      CalendarDate(d.year, d.monthIndex + 1, 1)
    else
      CalendarDate(d.year + 1, 0, 1)
  }

  /** The date `n` calendar days after `d`. */
  function AddDays(d: Date, n: nat): (r: Date)
    ensures DayNumber(r) == DayNumber(d) + n
    decreases n
  {
    if n == 0 then d else AddDays(NextDay(d), n - 1)
  }

  // ---------------------------------------------------------------------------
  // dayDifference
  // ---------------------------------------------------------------------------

  /**
   * The millisecond value `Date.UTC(year, monthIndex, day)` of a date's fields
   * for a year outside 0..99 (the corrected `Date.UTC`; `UtcMsAsWritten` adds
   * 1900 to those years): milliseconds counted from 1970-01-01.
   */
  function UtcMs(d: CalendarDate): (ms: int)
    requires 0 <= d.monthIndex < 12
    ensures ms % MsPerDay == 0 && ms / MsPerDay == DayNumber(d)
    ensures d == CalendarDate(1970, 0, 1) ==> ms == 0
  {
    DivModUnique(DayNumber(d) * MsPerDay, MsPerDay, DayNumber(d), 0);
    DayNumber(d) * MsPerDay
  }

  /** The next calendar day starts exactly one day's worth of milliseconds later. */
  lemma UtcMsNextDay(d: Date)
    ensures UtcMs(NextDay(d)) == UtcMs(d) + MsPerDay
  {
  }

  /** `Math.floor(ms / MsPerDay)`; Dafny's `/` by a positive divisor rounds down. */
  function FloorDays(ms: int): (r: int)
    ensures r * MsPerDay <= ms < (r + 1) * MsPerDay
  {
    ms / MsPerDay
  }

  lemma ExactDays(k: int)
    ensures FloorDays(k * MsPerDay) == k
  {
  }

  /**
   * The whole number of days from `a` to `b`, by the calendar values alone.
   * The floor of an exact multiple of a day is the multiple itself.
   */
  function DayDifference(a: Date, b: Date): (r: int)
    ensures r == DayNumber(b) - DayNumber(a)
  {
    ExactDays(DayNumber(b) - DayNumber(a));
    FloorDays(UtcMs(b) - UtcMs(a))
  }

  /** `dayDifference` is zero on equal dates, antisymmetric, additive, and signs the calendar order. */
  lemma DayDifferenceLaws(a: Date, b: Date, c: Date)
    ensures DayDifference(a, a) == 0
    ensures DayDifference(a, b) == -DayDifference(b, a)
    ensures DayDifference(a, b) + DayDifference(b, c) == DayDifference(a, c)
    ensures DayDifference(a, b) > 0 <==> DateBefore(a, b)
    ensures DayDifference(a, b) == 0 <==> a == b
  {
    DayNumberOrder(a, b);
    DayNumberInjective(a, b);
  }

  /** The number of days after `d` is what `AddDays` moved by. */
  lemma DayDifferenceAddDays(d: Date, n: nat)
    ensures DayDifference(d, AddDays(d, n)) == n
  {
  }

  // ---------------------------------------------------------------------------
  // dayDifference as written: Date.UTC reads years 0..99 as 1900..1999
  // ---------------------------------------------------------------------------

  /** The year `Date.UTC` uses for a year argument: 0..99 stand for 1900..1999. */
  function UtcYear(y: int): (r: int)
    ensures r == y || r == y + 1900
    ensures r != y <==> 0 <= y <= 99
    ensures !(0 <= r <= 99)
  {
    if 0 <= y <= 99 then 1900 + y else y
  }

  /** `Date.UTC(d.getFullYear(), d.getMonth(), d.getDate())` as JavaScript evaluates it. */
  function UtcMsAsWritten(d: Date): (ms: int)
    ensures !(0 <= d.year <= 99) ==> ms == UtcMs(d)
    ensures 0 <= d.year <= 99 ==> ms == UtcMs(CalendarDate(d.year + 1900, d.monthIndex, d.day))
  {
    UtcMs(CalendarDate(UtcYear(d.year), d.monthIndex, d.day))
  }

  /** `dayDifference` in content.js as JavaScript evaluates it, two-digit-year reinterpretation included. */
  function DayDifferenceAsWritten(a: Date, b: Date): (r: int)
    ensures !(0 <= a.year <= 99) && !(0 <= b.year <= 99) ==> r == DayDifference(a, b)
  {
    var a' := CalendarDate(UtcYear(a.year), a.monthIndex, a.day);
    var b' := CalendarDate(UtcYear(b.year), b.monthIndex, b.day);
    ExactDays(DayNumber(b') - DayNumber(a'));
    FloorDays(UtcMsAsWritten(b) - UtcMsAsWritten(a))
  }

  /** Two different dates 1900 years apart come out zero days apart. */
  lemma TwoDigitYearCollision()
    ensures CalendarDate(50, 0, 1) != CalendarDate(1950, 0, 1)
    ensures DayDifferenceAsWritten(CalendarDate(50, 0, 1), CalendarDate(1950, 0, 1)) == 0
    ensures DayDifference(CalendarDate(50, 0, 1), CalendarDate(1950, 0, 1)) == 693_960
  {
  }
}

=== FILE: cycle_phase.dfy ===
/**
 * `getCyclePhase` in content.js: the phase of a calendar day within a
 * recurring cycle anchored at a start date.
 *
 * The lengths are plain integers, as content.js does not check them: a zero
 * cycle length makes JavaScript's `%` yield NaN, every comparison with NaN is
 * false, and the day is 'regular'; a negative cycle length uses `%`'s
 * truncating remainder.
 */
module CyclePhase {
  import opened Arith
  import opened Calendar

  datatype Phase = Period | Fertile | Regular

  /**
   * JavaScript `a % b` for integers and a non-zero `b`: the remainder of the
   * division truncated toward zero, so it takes the sign of `a`.
   */
  function JsRemainder(a: int, b: int): (r: int)
    requires b != 0
    ensures Abs(r) < Abs(b)
    ensures a >= 0 ==> 0 <= r
    ensures a < 0 ==> r <= 0
    ensures (a - r) % Abs(b) == 0
  {
    var m := Abs(a) % Abs(b);
    var q := Abs(a) / Abs(b);
    assert Abs(a) == q * Abs(b) + m;
    if a < 0 then
      DivModUnique(a + m, Abs(b), -q, 0);
      -m
    else
      DivModUnique(a - m, Abs(b), q, 0);
      m
  }

  /**
   * The phase of the day `daysSinceStart` days after the cycle start. The
   * fertile window is the six days from four before to one after an
   * estimated ovulation day fourteen days before the next cycle begins.
   */
  function ClassifyDay(daysSinceStart: int, cycleLength: int, periodLength: int): (r: Phase)
    ensures daysSinceStart < 0 ==> r == Regular
    ensures cycleLength == 0 ==> r == Regular
    ensures daysSinceStart >= 0 && cycleLength != 0 ==>
              var k := daysSinceStart % Abs(cycleLength);
              && (r == Period <==> k < periodLength)
              && (r == Fertile <==> periodLength <= k && cycleLength - 18 <= k <= cycleLength - 13)
  {
    if daysSinceStart < 0 then
      Regular
    else if cycleLength == 0 then
      Regular
    else
      var dayInCycle := JsRemainder(daysSinceStart, cycleLength);
      if dayInCycle < periodLength then
        Period
      else
        var ovulationDay := cycleLength - 14;
        var fertileStart := ovulationDay - 4;
        var fertileEnd := ovulationDay + 1;
        if fertileStart <= dayInCycle <= fertileEnd then Fertile else Regular
  }

  /** `getCyclePhase` in content.js, for a day `current` and a cycle start date. */
  function GetCyclePhase(current: Date, start: Date, cycleLength: int, periodLength: int): (r: Phase)
    ensures DateBefore(current, start) ==> r == Regular
    ensures cycleLength == 0 ==> r == Regular
    ensures current == start ==> (r == Period <==> cycleLength != 0 && periodLength > 0)
  {
    DayDifferenceLaws(start, current, current);
    ClassifyDay(DayDifference(start, current), cycleLength, periodLength)
  }

  /**
   * `getCyclePhase` as JavaScript evaluates it, on the day count of
   * `dayDifference` as written. It differs from `GetCyclePhase` only when a
   * year from 0 to 99 is involved.
   */
  function GetCyclePhaseAsWritten(current: Date, start: Date, cycleLength: int, periodLength: int): (r: Phase)
    ensures !(0 <= current.year <= 99) && !(0 <= start.year <= 99)
            ==> r == GetCyclePhase(current, start, cycleLength, periodLength)
  {
    ClassifyDay(DayDifferenceAsWritten(start, current), cycleLength, periodLength)
  }

  /** As written, 0050-01-01 comes before a 1950-01-01 start yet is a period day. */
  lemma TwoDigitYearPhase()
    ensures DateBefore(CalendarDate(50, 0, 1), CalendarDate(1950, 0, 1))
    ensures GetCyclePhaseAsWritten(CalendarDate(50, 0, 1), CalendarDate(1950, 0, 1), 28, 5) == Period
    ensures GetCyclePhase(CalendarDate(50, 0, 1), CalendarDate(1950, 0, 1), 28, 5) == Regular
  {
  }

  // ---------------------------------------------------------------------------
  // Reference: day o of cycle number c
  // ---------------------------------------------------------------------------

  /** The offset from the cycle start at which cycle number `c` begins. */
  function CycleStart(c: nat, cycleLength: nat): nat {
    c * cycleLength
  }

  /** Day `n` after the start is day `o` (0-based) of some cycle. */
  ghost predicate InCycleAt(n: int, cycleLength: nat, o: int) {
    0 <= o < cycleLength && exists c: nat :: n == CycleStart(c, cycleLength) + o
  }

  /** Day `n` falls among the first `periodLength` days of its cycle. */
  ghost predicate PeriodDay(n: int, cycleLength: nat, periodLength: int) {
    exists o :: o < periodLength && InCycleAt(n, cycleLength, o)
  }

  /**
   * Day `n` is a post-period day whose cycle begins again in 13 to 18 days:
   * from four days before to one day after the day 14 days before the next start.
   */
  ghost predicate FertileDay(n: int, cycleLength: nat, periodLength: int) {
    exists o :: periodLength <= o && 13 <= cycleLength - o <= 18 && InCycleAt(n, cycleLength, o)
  }

  lemma OffsetInCycle(c: nat, cycleLength: nat, o: int)
    requires 0 <= o < cycleLength
    ensures (CycleStart(c, cycleLength) + o) % cycleLength == o
  {
    DivModUnique(CycleStart(c, cycleLength) + o, cycleLength, c, o);
  }

  /** Each day after the start is in exactly one cycle position, its remainder. */
  lemma PositionInCycle(n: int, cycleLength: nat, o: int)
    requires n >= 0 && cycleLength > 0
    ensures InCycleAt(n, cycleLength, o) <==> o == n % cycleLength
  {
    if InCycleAt(n, cycleLength, o) {
      var c: nat :| n == CycleStart(c, cycleLength) + o;
      OffsetInCycle(c, cycleLength, o);
    }
    if o == n % cycleLength {
      var c: nat := n / cycleLength;
      assert n == CycleStart(c, cycleLength) + o;
    }
  }

  /** For a positive cycle length the classifier agrees with the cycle reference. */
  lemma ClassifyDayMatchesCycles(n: int, cycleLength: int, periodLength: int)
    requires n >= 0 && cycleLength > 0
    ensures ClassifyDay(n, cycleLength, periodLength) == Period <==> PeriodDay(n, cycleLength, periodLength)
    ensures ClassifyDay(n, cycleLength, periodLength) == Fertile <==> FertileDay(n, cycleLength, periodLength)
    ensures ClassifyDay(n, cycleLength, periodLength) == Regular
            <==> !PeriodDay(n, cycleLength, periodLength) && !FertileDay(n, cycleLength, periodLength)
  {
    var k := n % cycleLength;
    PositionInCycle(n, cycleLength, k);
    if PeriodDay(n, cycleLength, periodLength) {
      var o :| o < periodLength && InCycleAt(n, cycleLength, o);
      PositionInCycle(n, cycleLength, o);
    }
    if FertileDay(n, cycleLength, periodLength) {
      var o :| periodLength <= o && 13 <= cycleLength - o <= 18 && InCycleAt(n, cycleLength, o);
      PositionInCycle(n, cycleLength, o);
    }
  }

  // ---------------------------------------------------------------------------
  // Periodicity
  // ---------------------------------------------------------------------------

  lemma RemainderPeriodic(n: int, m: nat, k: nat)
    requires n >= 0 && m > 0
    ensures (n + k * m) % m == n % m
  {
    var q := n / m;
    assert n == q * m + n % m;
    assert n + k * m == (q + k) * m + n % m;
    DivModUnique(n + k * m, m, q + k, n % m);
  }

  /** Moving a whole number of cycles forward keeps the phase. */
  lemma ClassifyDayPeriodic(n: int, cycleLength: int, periodLength: int, k: nat)
    requires n >= 0
    ensures ClassifyDay(n + k * Abs(cycleLength), cycleLength, periodLength)
            == ClassifyDay(n, cycleLength, periodLength)
  {
    if cycleLength != 0 {
      RemainderPeriodic(n, Abs(cycleLength), k);
    }
  }

  /** A date on or after the start and the date k cycles later are in the same phase. */
  lemma GetCyclePhasePeriodic(current: Date, start: Date, cycleLength: int, periodLength: int, k: nat)
    requires !DateBefore(current, start)
    ensures GetCyclePhase(AddDays(current, k * Abs(cycleLength)), start, cycleLength, periodLength)
            == GetCyclePhase(current, start, cycleLength, periodLength)
  {
    DayDifferenceLaws(start, current, current);
    ClassifyDayPeriodic(DayDifference(start, current), cycleLength, periodLength, k);
  }


  /**
   * The worked example, cycles of 28 days with 5 period days starting
   * 2024-01-01: the day before the start is regular (`ExampleJanuary` covers
   * the days of January).
   */
  lemma Example2024()
    ensures GetCyclePhase(CalendarDate(2023, 11, 31), CalendarDate(2024, 0, 1), 28, 5) == Regular
  {
  }

  /** In January 2024, day `d` of the month is `d - 1` days after 2024-01-01. */
  lemma JanuaryCount(d: int)
    requires 1 <= d <= 31
    ensures DayDifference(CalendarDate(2024, 0, 1), CalendarDate(2024, 0, d)) == d - 1
  {
  }

  /** Every day of January 2024 in the worked example, by range. */
  lemma ExampleJanuary(d: int)
    requires 1 <= d <= 31
    ensures 1 <= d <= 5 ==> GetCyclePhase(CalendarDate(2024, 0, d), CalendarDate(2024, 0, 1), 28, 5) == Period
    ensures 6 <= d <= 10 ==> GetCyclePhase(CalendarDate(2024, 0, d), CalendarDate(2024, 0, 1), 28, 5) == Regular
    ensures 11 <= d <= 16 ==> GetCyclePhase(CalendarDate(2024, 0, d), CalendarDate(2024, 0, 1), 28, 5) == Fertile
    ensures 17 <= d <= 28 ==> GetCyclePhase(CalendarDate(2024, 0, d), CalendarDate(2024, 0, 1), 28, 5) == Regular
    ensures 29 <= d <= 31 ==> GetCyclePhase(CalendarDate(2024, 0, d), CalendarDate(2024, 0, 1), 28, 5) == Period
  {
    JanuaryCount(d);
    var n := d - 1;
    assert GetCyclePhase(CalendarDate(2024, 0, d), CalendarDate(2024, 0, 1), 28, 5) == ClassifyDay(n, 28, 5);
    if d <= 28 {
      assert n % 28 == n;
    } else {
      assert n % 28 == n - 28;
    }
  }
}

=== FILE: date_format.dfy ===
/**
 * `formatDate` in content.js: a date's fields written as `YYYY-MM-DD`, with
 * `String(...)` for each number and `padStart(2, '0')` on month and day.
 * `ParseDate` reads such a string back; it is the inverse that pins down what
 * the formatter writes.
 */
module DateFormat {
  import opened Wrappers
  import opened Calendar

  predicate IsDigit(c: char) {
    '0' <= c <= '9'
  }

  predicate AllDigits(s: string) {
    forall i :: 0 <= i < |s| ==> IsDigit(s[i])
  }

  function DigitChar(n: nat): (c: char)
    requires n < 10
    ensures IsDigit(c)
  {
    ('0' as int + n) as char
  }

  function DigitValue(c: char): (n: nat)
    requires IsDigit(c)
    ensures n < 10 && DigitChar(n) == c
  {
    (c as int - '0' as int) as nat
  }

  /** The decimal value of a string of digits, most significant first. */
  function DigitsValue(s: string): nat
    requires AllDigits(s)
  {
    if |s| == 0 then 0 else DigitsValue(s[..|s| - 1]) * 10 + DigitValue(s[|s| - 1])
  }

  /** `String(n)` for a non-negative integer: shortest decimal, no leading zero. */
  function NatToString(n: nat): (s: string)
    ensures AllDigits(s) && |s| >= 1
    ensures n < 10 ==> |s| == 1
    ensures 10 <= n < 100 ==> |s| == 2
    ensures 100 <= n < 1000 ==> |s| == 3
    ensures 1000 <= n < 10000 ==> |s| == 4
    ensures n >= 10 ==> s[0] != '0'
    decreases n
  {
    if n < 10 then [DigitChar(n)] else NatToString(n / 10) + [DigitChar(n % 10)]
  }

  /** `String(n)` for any integer: a minus sign before the magnitude when negative. */
  function IntToString(n: int): (s: string)
    ensures n >= 0 ==> |s| >= 1 && AllDigits(s) && DigitsValue(s) == n && (|s| == 1 || s[0] != '0')
    ensures n < 0 ==> |s| >= 2 && s[0] == '-' && AllDigits(s[1..]) && DigitsValue(s[1..]) == -n
                      && s[1] != '0'
  {
    if n < 0 then
      NatToStringValue(-n);
      assert ("-" + NatToString(-n))[1..] == NatToString(-n);
      "-" + NatToString(-n)
    else
      NatToStringValue(n);
      NatToString(n)
  }

  /** `s.padStart(width, fill)` with a one-character fill. */
  function PadStart(s: string, width: nat, fill: char): (r: string)
    ensures |r| == if |s| >= width then |s| else width
    ensures r[|r| - |s|..] == s
    ensures forall i :: 0 <= i < |r| - |s| ==> r[i] == fill
    decreases width - |s|
  {
    if |s| >= width then s else PadStart([fill] + s, width, fill)
  }

  /** `formatDate` in content.js: year, month index + 1 and day, the last two padded to two digits. */
  function FormatDate(d: Date): string {
    IntToString(d.year) + "-" + PadStart(IntToString(d.monthIndex + 1), 2, '0')
      + "-" + PadStart(IntToString(d.day), 2, '0')
  }

  /** Reads `YYYY-MM-DD` with a four-digit year of 1000 or more back into a date. */
  function ParseDate(s: string): Option<Date> {
    if |s| == 10 && s[4] == '-' && s[7] == '-'
       && AllDigits(s[..4]) && AllDigits(s[5..7]) && AllDigits(s[8..]) then
      var y := DigitsValue(s[..4]);
      var m := DigitsValue(s[5..7]);
      var d := DigitsValue(s[8..]);
      if 1000 <= y && 1 <= m <= 12 && 1 <= d <= DaysInMonth(y, m - 1) then
        Some(CalendarDate(y, m - 1, d))
      else
        None
    else
      None
  }

  // ---------------------------------------------------------------------------
  // Digits
  // ---------------------------------------------------------------------------

  /** Reading `String(n)` back as digits gives `n`. */
  lemma {:induction false} NatToStringValue(n: nat)
    ensures DigitsValue(NatToString(n)) == n
    decreases n
  {
    var s := NatToString(n);
    if n >= 10 {
      NatToStringValue(n / 10);
      assert s[..|s| - 1] == NatToString(n / 10);
    }
  }

  lemma {:induction false} LeadingDigitNonZero(s: string)
    requires AllDigits(s) && |s| >= 1 && s[0] != '0'
    ensures DigitsValue(s) >= 1
    decreases |s|
  {
    if |s| > 1 {
      LeadingDigitNonZero(s[..|s| - 1]);
    }
  }

  /** A digit string with no leading zero is `String` of its own value. */
  lemma {:induction false} CanonicalDigits(s: string)
    requires AllDigits(s) && |s| >= 1 && (|s| == 1 || s[0] != '0')
    ensures NatToString(DigitsValue(s)) == s
    decreases |s|
  {
    var n := DigitsValue(s);
    if |s| == 1 {
      assert s == [DigitChar(DigitValue(s[0]))];
    } else {
      var prefix := s[..|s| - 1];
      LeadingDigitNonZero(prefix);
      CanonicalDigits(prefix);
      assert n / 10 == DigitsValue(prefix) && n % 10 == DigitValue(s[|s| - 1]);
      assert s == prefix + [s[|s| - 1]];
    }
  }

  /** A one- or two-digit positive number padded to width two is two digits of that value. */
  lemma TwoDigitsValue(n: nat)
    requires 1 <= n < 100
    ensures |PadStart(NatToString(n), 2, '0')| == 2
    ensures AllDigits(PadStart(NatToString(n), 2, '0'))
    ensures DigitsValue(PadStart(NatToString(n), 2, '0')) == n
  {
    var s := NatToString(n);
    var p := PadStart(s, 2, '0');
    NatToStringValue(n);
    if n < 10 {
      assert p == ['0'] + s;
      assert p[..1] == ['0'];
    } else {
      assert p == s;
    }
  }

  /** Two digits that are not both zero come back unchanged through value, `String` and padding. */
  lemma TwoDigitsCanonical(t: string)
    requires |t| == 2 && AllDigits(t) && DigitsValue(t) >= 1
    ensures PadStart(NatToString(DigitsValue(t)), 2, '0') == t
  {
    if t[0] == '0' {
      var u := t[1..];
      LeadingZero(t);
      CanonicalDigits(u);
      assert t == ['0'] + u;
    } else {
      CanonicalDigits(t);
    }
  }

  // ---------------------------------------------------------------------------
  // The shape of formatDate's output and its round trip
  // ---------------------------------------------------------------------------

  /** The three fields of `a-b-c` with a four-character `a` and two-character `b` and `c`. */
  lemma DashedFields(a: string, b: string, c: string)
    requires |a| == 4 && |b| == 2 && |c| == 2
    ensures |a + "-" + b + "-" + c| == 10
    ensures (a + "-" + b + "-" + c)[4] == '-' && (a + "-" + b + "-" + c)[7] == '-'
    ensures (a + "-" + b + "-" + c)[..4] == a
    ensures (a + "-" + b + "-" + c)[5..7] == b
    ensures (a + "-" + b + "-" + c)[8..] == c
  {
  }

  /** For years 1000..9999 the output is `YYYY-MM-DD`: ten characters, dashes at 4 and 7, digits elsewhere. */
  lemma FormatDateShape(d: Date)
    requires 1000 <= d.year <= 9999
    ensures |FormatDate(d)| == 10
    ensures FormatDate(d)[4] == '-' && FormatDate(d)[7] == '-'
    ensures AllDigits(FormatDate(d)[..4]) && DigitsValue(FormatDate(d)[..4]) == d.year
    ensures AllDigits(FormatDate(d)[5..7]) && DigitsValue(FormatDate(d)[5..7]) == d.monthIndex + 1
    ensures AllDigits(FormatDate(d)[8..]) && DigitsValue(FormatDate(d)[8..]) == d.day
  {
    var ys := NatToString(d.year);
    var ms := PadStart(NatToString(d.monthIndex + 1), 2, '0');
    var ds := PadStart(NatToString(d.day), 2, '0');
    FormatDatePieces(d);
    NatToStringValue(d.year);
    TwoDigitsValue(d.monthIndex + 1);
    TwoDigitsValue(d.day);
    DashedFields(ys, ms, ds);
  }

  /** The three pieces `formatDate` joins, for a non-negative year. */
  lemma FormatDatePieces(d: Date)
    requires d.year >= 0
    ensures FormatDate(d) == NatToString(d.year) + "-" + PadStart(NatToString(d.monthIndex + 1), 2, '0')
                             + "-" + PadStart(NatToString(d.day), 2, '0')
  {
    assert IntToString(d.year) == NatToString(d.year);
    assert IntToString(d.monthIndex + 1) == NatToString(d.monthIndex + 1);
    assert IntToString(d.day) == NatToString(d.day);
  }

  /** Parsing what `formatDate` writes gives the date back. */
  lemma ParseFormatRoundTrip(d: Date)
    requires 1000 <= d.year <= 9999
    ensures ParseDate(FormatDate(d)) == Some(d)
  {
    FormatDateShape(d);
    ParseDateFields(FormatDate(d), d);
  }

  /** A `YYYY-MM-DD` string whose fields hold a real date's values parses to that date. */
  lemma ParseDateFields(s: string, d: Date)
    requires d.year >= 1000
    requires |s| == 10 && s[4] == '-' && s[7] == '-'
    requires AllDigits(s[..4]) && DigitsValue(s[..4]) == d.year
    requires AllDigits(s[5..7]) && DigitsValue(s[5..7]) == d.monthIndex + 1
    requires AllDigits(s[8..]) && DigitsValue(s[8..]) == d.day
    ensures ParseDate(s) == Some(d)
  {
  }

  /** Formatting what the parser accepts gives the string back. */
  lemma FormatParseRoundTrip(s: string)
    requires ParseDate(s).Some?
    ensures FormatDate(ParseDate(s).value) == s
  {
    var ys, ms, ds := s[..4], s[5..7], s[8..];
    assert s == ys + "-" + ms + "-" + ds;
    if ys[0] == '0' {
      LeadingZero(ys);
      DigitsValueBound(ys[1..]);
      assert false;
    }
    CanonicalDigits(ys);
    TwoDigitsCanonical(ms);
    TwoDigitsCanonical(ds);
  }

  function Pow10(k: nat): nat {
    if k == 0 then 1 else 10 * Pow10(k - 1)
  }

  /** A string of k digits has a value below 10^k. */
  lemma {:induction false} DigitsValueBound(s: string)
    requires AllDigits(s)
    ensures DigitsValue(s) < Pow10(|s|)
    decreases |s|
  {
    if |s| > 0 {
      DigitsValueBound(s[..|s| - 1]);
    }
  }

  /** A leading zero adds nothing to the value. */
  lemma {:induction false} LeadingZero(s: string)
    requires AllDigits(s) && |s| >= 1 && s[0] == '0'
    ensures DigitsValue(s) == DigitsValue(s[1..])
    decreases |s|
  {
    if |s| > 1 {
      var prefix := s[..|s| - 1];
      LeadingZero(prefix);
      assert prefix[1..] == s[1..][..|s[1..]| - 1];
    }
  }
}

=== FILE: phase_color.dfy ===
/**
 * The colour `updateCalendarStyles` in content.js gives a day: the `switch`
 * from phase to a CSS colour, and the `if (color)` test that decides whether
 * a style rule is written for the day at all.
 */
module PhaseColor {
  import opened Calendar
  import opened CyclePhase

  /** Light pink at 60% opacity. */
  const PeriodFill: string := "rgba(255, 182, 193, 0.6)"

  /** Light blue at 60% opacity. */
  const FertileFill: string := "rgba(173, 216, 230, 0.6)"

  /** The colour of a phase; the empty string means no colour. */
  function ColorOf(p: Phase): (c: string)
    ensures c == "" <==> p == Regular
    ensures c == PeriodFill <==> p == Period
    ensures c == FertileFill <==> p == Fertile
  {
    match p
    case Period => PeriodFill
    case Fertile => FertileFill
    case Regular => ""
  }

  /** Whether a style rule is written for the day `current`: exactly when its colour is non-empty. */
  predicate EmitsRule(current: Date, start: Date, cycleLength: int, periodLength: int)
    ensures EmitsRule(current, start, cycleLength, periodLength)
            <==> GetCyclePhase(current, start, cycleLength, periodLength) != Regular
  {
    ColorOf(GetCyclePhase(current, start, cycleLength, periodLength)) != ""
  }

  /**
   * Corollary of `EmitsRule`'s contract, with the corrected day count of
   * `GetCyclePhase`: a rule is written exactly for period
   * and fertile days; days before the start never get one, and neither do any
   * days when the cycle length is zero.
   */
  lemma EmitsRuleExactly(current: Date, start: Date, cycleLength: int, periodLength: int)
    ensures EmitsRule(current, start, cycleLength, periodLength)
            <==> GetCyclePhase(current, start, cycleLength, periodLength) in {Period, Fertile}
    ensures DateBefore(current, start) ==> !EmitsRule(current, start, cycleLength, periodLength)
    ensures cycleLength == 0 ==> !EmitsRule(current, start, cycleLength, periodLength)
  {
  }
}

=== FILE: wrappers.dfy ===
/** The Some/None datatype used for results that may be absent. */
module Wrappers {

  datatype Option<+T> = None | Some(value: T)
}
